=== FILE: README.md ===
# Weblate version state and dictionary views, in Dafny

This project models two small, self-contained parts of Weblate, a web-based
translation platform, and proves properties about them.

1. **Version state** (`weblate/__init__.py`). When the package is first
   imported it decides whether it runs from a git checkout. If it does, it
   classifies the `git describe` output as a release or a development build
   by splitting it on `-` and reading the third field as a commit distance.
   Development builds get the `-dev` suffix on `VERSION`. `get_doc_url` then
   builds a Read the Docs link from that state, a page name and an optional
   anchor. Module `Version` (`version.dfy`) models this.
2. **Dictionary (glossary) views** (`trans/views/dictionary.py`). This covers:
   - normalising the requested export format;
   - choosing the builder, file name, media type and PO header of a download;
   - exporting a project's words for one language in source order;
   - classifying an upload's outcome into a warning, info or error message;
   - the first-letter filter of the listing page.

   Module `Dictionary` (`dictionary.dfy`) models these.

Shared string machinery lives in `Text` (`text.dfy`). It covers Python's
`str.split` on one character and its inverse `join`, `'%d' %` formatting and
`int()` parsing, ASCII case folding for `istartswith`, and the code-point
order used for `order_by('source')`. `Wrappers` (`wrappers.dfy`) holds
`Option` and `Result`. A `Result` failure stands for a Python exception.

The web framework is abstracted away:
- the dictionary table is a `seq<Word>`;
- each request is its parsed parameters;
- each response is a record of what the view decided (flash message level
  and text, redirect target, download metadata and entries).

The environment probes are one input, `Version.GitProbe`. They are the `.git`
existence test, the GitPython import and `git describe`.

## Model

| member | source | states |
|---|---|---|
| `Text.Split` | weblate/__init__.py:56 | `str.split('-')` yields one more piece than there are dashes, no piece holds a dash, and joining the pieces with dashes gives back the input |
| `Text.SplitJoin` | weblate/__init__.py:56 | round trip: splitting a dash-join of dash-free parts returns exactly those parts, so the fields read are the pieces the describe string was made of |
| `Text.FormatInt` | trans/views/dictionary.py:133 | `'%d' % n` is a minus sign exactly for negative numbers, then the digits of the magnitude with no leading zero, so zero is written `0` |
| `Text.ParseInt` | weblate/__init__.py:57 | `int()` succeeds exactly when the text without surrounding whitespace is an optionally signed, non-empty run of digits, so `1.6`, `5rc` or `1 2` raise; an empty or all-whitespace string raises, and a failure names the literal it could not read |
| `Text.ParseFormatInt` | trans/views/dictionary.py:133 | round trip between `'%d' % n` and `int()`: for every integer, parsing its decimal spelling gives the integer back |
| `Text.Decimal` | trans/views/dictionary.py:133 | the `%d` spelling of a natural number is all digits, has no leading zero unless it is `0`, and has the number as its value |
| `Text.ParseIntDigits` | weblate/__init__.py:57 | `int()` of a non-empty run of ASCII digits is the value of those digits |
| `Text.ParseIntRejectsLetter` | weblate/__init__.py:57 | `int()` of any field starting with something other than whitespace, a sign or a digit (such as a commit hash), whatever it ends with, raises (is a failure naming the field) |
| `Text.IStartsWithCaseBlind` | trans/views/dictionary.py:279 | `istartswith` ignores case on both sides: lower-casing the letter, or the source term, does not change which sources match |
| `Text.LexLeTotal` | trans/views/dictionary.py:227 | any two source terms are ordered one way or the other, so ordering by source is defined on every table |
| `Text.LexLeTransitive` | trans/views/dictionary.py:227 | the source order is transitive, so a sorted list is ordered between any two positions |
| `Text.LexLeAntisymmetric` | trans/views/dictionary.py:227 | two sources ordered both ways are equal, so the order ties only identical sources |
| `Version.ClassifyFields` | weblate/__init__.py:56-57 | at most two fields is a release; with more, it is a release exactly when `int()` of the third field succeeds and is below 20, and `int()`'s failure is passed on |
| `Version.ClassifyDescribe` | weblate/__init__.py:56-57 | a describe output with at most one dash is a release, and it can only fail when it has at least two dashes |
| `Version.ClassifyJoinedFields` | weblate/__init__.py:56-57 | a describe string built from dash-free fields is classified on those fields, so a dashed tag such as `weblate-1.6` moves the commit count to the third field |
| `Version.ClassifyCommitDistance` | weblate/__init__.py:56-57 | for every dashed tag, commit count `n` and hash, the describe string `<tag>-<version>-<n>-<hash>` is a release exactly when `n < 20` |
| `Version.ClassifyHashAsCount` | weblate/__init__.py:56-57 | for every undashed tag, count and hash starting with a letter, `<tag>-<n>-<hash>` makes `int()` raise on the hash |
| `Version.ClassifyNearTag` | weblate/__init__.py:56-57 | `weblate-1.6-5-gabc` tests the field `5` and is a release |
| `Version.ClassifyFarFromTag` | weblate/__init__.py:56-57 | `weblate-1.6-25-gabc` tests `25` and is a development build |
| `Version.ClassifyUndashedTag` | weblate/__init__.py:56-57 | `v1.6-5-gabc` puts the hash `gabc` in the third field, and `int()` raises on it |
| `Version.Init` | weblate/__init__.py:42-66 | the import leaves a well-formed state: `-dev` on the version exactly for a checkout classified as not a release, `RUNNING_GIT` true exactly when describe succeeded, `GIT_RELEASE` equal to the classification; an uncaught error exactly when the third field is not a number or the repository probe raised something other than ImportError or GitCommandError, which then escapes unchanged; a non-numeric third field escapes as `int()`'s ValueError (`InvalidCommitCount`), as in the code as written |
| `Version.InitAsWritten` | weblate/__init__.py:63-66 | as written, every probe outcome but a missing GitPython behaves as `Init`, and a missing GitPython makes the import fail |
| `Version.MissingGitPythonEscapes` | weblate/__init__.py:50-66 | without GitPython the code as written raises a NameError, while the intended handling leaves `RUNNING_GIT` false and `VERSION` at `1.6` |
| `Version.InitVersion` | weblate/__init__.py:61-62 | after a successful import the version is `1.6-dev` exactly when describe succeeded and classified the build as not a release, and is `1.6` in every other case |
| `Version.DocVersion` | weblate/__init__.py:74-77 | the link's version segment is `latest` exactly for a running, non-release checkout, and `weblate-<VERSION>` otherwise |
| `Version.DocUrl` | weblate/__init__.py:79-84 | an empty anchor gives exactly `http://weblate.readthedocs.org/en/<version>/<page>.html`; otherwise that page link is a prefix, the next character is `#`, and the anchor ends the URL with nothing else added |
| `Version.DocUrlAnchorRoundTrip` | weblate/__init__.py:79-82 | splitting a link at `#` gives back the page link alone for an empty anchor and the page link plus the anchor otherwise, so the anchor is appended once |
| `Version.DocVersionNeverDev` | weblate/__init__.py:61-77 | for every state the import can produce, the link's version segment is `latest` or `weblate-1.6` and never contains `-dev` |
| `Version.DevVersionLinksLatest` | weblate/__init__.py:61-77 | whenever the import set the version to `1.6-dev`, the documentation links point at `latest` |
| `Dictionary.Filter` | trans/views/dictionary.py:278-280 | a filter keeps each accepted word exactly as often as it occurs and drops the rest, and a sorted input stays sorted |
| `Dictionary.Insert` | trans/views/dictionary.py:227 | inserting into a source-ordered list keeps it ordered and adds exactly that word |
| `Dictionary.SortBySource` | trans/views/dictionary.py:227 | `order_by('source')` returns a permutation of its input, ordered by source |
| `Dictionary.Matching` | trans/views/dictionary.py:224-226 | the query keeps exactly the table's words of that project and language, each as often as the table holds it |
| `Dictionary.DictionaryWords` | trans/views/dictionary.py:224-227 | the export query returns exactly the project's words for the language, each as often as stored, in source order |
| `Dictionary.ParseFormat` | trans/views/dictionary.py:220 | a name is a format exactly when it is one of `csv`, `po`, `tbx`, and the format read back has that name |
| `Dictionary.FormatNameRoundTrip` | trans/views/dictionary.py:220 | every export format's name reads back as that format |
| `Dictionary.NormaliseFormat` | trans/views/dictionary.py:217-221 | the normalised format is always `csv`, `po` or `tbx`; a recognised request is kept, a missing or unrecognised one becomes `csv` |
| `Dictionary.NormaliseFormatIdempotent` | trans/views/dictionary.py:217-221 | normalising an already normalised format changes nothing |
| `Dictionary.Entries` | trans/views/dictionary.py:195-201 | one entry per word, in the words' order, carrying the word's source and target |
| `Dictionary.PoHeaderFor` | trans/views/dictionary.py:166-178 | the PO header names the language code; its generator field is `Weblate ` followed by exactly the running version; the project id is `<language name> (<project name>)` and the team `<language name> <<dictionary address>>` |
| `Dictionary.PoGeneratorVersion` | trans/views/dictionary.py:169 | for every state the import can produce, the PO header's generator is `Weblate 1.6-dev` exactly for a development build and `Weblate 1.6` otherwise |
| `Dictionary.ToolkitDownload` | trans/views/dictionary.py:150-206 | the toolkit builder serves PO for `po` and TBX for anything else, as `text/x-po` or `application/x-tbx` with `; charset=utf-8`, as the attachment `glossary-<slug>-<code>.<po or tbx>`; only PO gets a header, and only TBX attaches the language code to each target; one entry per word, in order |
| `Dictionary.CsvDownload` | trans/views/dictionary.py:233-245 | the hand-written CSV is served as `text/csv; charset=utf-8`, as the attachment `dictionary-<slug>-<code>.csv`, with no header and one source/target row per word, in order |
| `Dictionary.DownloadDictionary` | trans/views/dictionary.py:209-245 | the served format is the normalised request, and only CSV is written by hand. The name is `dictionary-<slug>-<code>.csv` or `glossary-<slug>-<code>.<po/tbx>`, and the type is `text/csv`, `text/x-po` or `application/x-tbx` plus `; charset=utf-8`. The PO header names the running version. The entries are the ordered dictionary words, and only TBX attaches the language code |
| `Dictionary.ExportIsDictionary` | trans/views/dictionary.py:224-243 | the export has exactly as many entries as the project has words for the language, they are in source order, and each one is the source and target of such a word |
| `Dictionary.FileNameExtension` | trans/views/dictionary.py:235 | a download name ends in its extension after the last dot, whatever dots the slug or language code contain |
| `Dictionary.FormatExtension` | trans/views/dictionary.py:155-191 | every format's download name ends in that format's own extension |
| `Dictionary.UploadDictionary` | trans/views/dictionary.py:111-147 | a count of 0 warns `No words to import found in file.`, any other count informs `Imported <n> words from file.` with the `%d` spelling of the count, an exception, invalid form or non-POST request is an error with the matching text, and every outcome redirects to the same dictionary page |
| `Dictionary.ImportedCountReadsBack` | trans/views/dictionary.py:131-134 | the informational message is `Imported <n> words from file.` where `<n>` is exactly the `%d` spelling of the count, and reading it back with `int()` gives the imported count |
| `Dictionary.FilterByLetter` | trans/views/dictionary.py:275-283 | an invalid or empty letter leaves the list unchanged with letter `''`; otherwise exactly the words whose source starts with the letter, ignoring case, remain, each as often as before, still in source order |
| `Dictionary.ShowDictionary` | trans/views/dictionary.py:268-283 | the letter shown is the form's letter when the form is valid and the letter non-empty, and empty otherwise; the listing holds each of the project's words for the language that passes that letter exactly as often as the table does, in source order |
| `Dictionary.FilterByLetterIdempotent` | trans/views/dictionary.py:277-283 | applying the letter filter again to its own result changes nothing |
| `Dictionary.FilterKeepsAccepted` | trans/views/dictionary.py:278-280 | filtering a list whose words all pass returns the list unchanged |

## Findings

| source | as written | input that shows it | evidently intended | confidence | as-written member | corrected member |
|---|---|---|---|---|---|---|
| weblate/__init__.py:63 | `except (ImportError, git.exc.GitCommandError)` evaluates `git.exc` while handling the ImportError of `import git`, when the name `git` was never bound, so a NameError escapes the import of the package | running from a git checkout without GitPython installed (`GitUnavailable`) | the comment on lines 64-65: an import failure sets `RUNNING_GIT` to false and keeps `VERSION` at `1.6` | high; not executed | `Version.InitAsWritten` | `Version.Init` |

The rest of the model (documentation links, the PO header's generator)
uses the corrected `Version.Init`.

## Left out

- Django itself is not modelled: requests, responses, templates, the
  `messages` framework, `reverse`/`get_site_url`, `get_project`,
  `get_object_or_404` (the 404 paths) and the `login_required` /
  `permission_required` decorators. The dictionary page's address is the
  `dictionaryUrl` input of the download.
- Message translation (`_()`) is treated as the identity.
- `edit_dictionary`, `delete_dictionary`, `show_dictionaries` and the
  word-creating POST branch of `show_dictionary` are left out. They are ORM
  reads and writes with no logic of their own.
- Pagination in `show_dictionary` (`limit`, `page`, and the fallbacks for a
  non-integer or out-of-range page) is left out. It depends entirely on
  Django's `Paginator`. `ShowDictionary` models the listing before it is paged.
- The translate-toolkit writers (`pofile`, `tbxfile`, `updateheader`,
  `savefile`), the quoting of Python's `csv` module and UTF-8 encoding are
  left out. A download is modelled as its metadata plus its entries.
- `Dictionary.objects.upload` and the upload and letter forms are not part of
  this model. Their outcomes are the `UploadRequest` and `LetterForm` inputs.
- `get_root_dir`, `is_running_git`, the GitPython call and logging are
  effects. Their combined outcome is the `GitProbe` input. Every exception
  other than ImportError and GitCommandError (an unreadable `.git`, say) is
  the one outcome `OtherGitError`, carrying only its message.
- `GIT_VERSION`, the raw `git describe` output the import keeps as a module
  global, is not part of `VersionState`. Nothing in the modelled code reads
  it after classification; it is the `Described` probe's `output`.
- `weblate/urls.py` is not modelled: it is a declarative routing table.
- `trans/views/checks.py` is not modelled: it is ORM aggregation over models
  not shown.
- Text.ParseInt: models `int()` as surrounding ASCII whitespace, one optional
  sign and at least one ASCII digit. Python 2's tolerance of whitespace
  between the sign and the digits is not modelled, and neither are non-ASCII
  digits. A `git describe` field never contains either.
- Text.IStartsWith: folds case for ASCII letters only. The database's
  case-insensitive comparison of other letters depends on its collation.
- Dictionary.UploadDictionary: the exception's text is taken as already
  readable. Under Python 2, `unicode(e)` at trans/views/dictionary.py:138 raises
  UnicodeDecodeError when the message is a byte string holding non-ASCII
  bytes. That error would escape the view with no flash message and no
  redirect. The model does not tell byte-string messages from unicode ones,
  so it leaves this path out.
- Dictionary.SortBySource: ordering is by code point, not by the database's
  collation. Among equal sources only the words themselves are promised, not
  the database's choice of order.

=== FILE: dictionary.dfy ===
/** The decisions of the dictionary (glossary) views in
    trans/views/dictionary.py, with the web framework abstracted away: the
    dictionary table is a sequence of word records, a request is its parsed
    parameters, and a response is the record of what the view decided. */
module Dictionary {
  import opened Wrappers
  import opened Text
  import Version

  // ---------------------------------------------------------------------
  // Data model
  // ---------------------------------------------------------------------

  datatype Project = Project(slug: string, name: string)

  datatype Language = Language(code: string, name: string)

  /** One glossary entry: a source term and its translation, owned by one
      project and one target language. */
  datatype Word = Word(project: Project, language: Language, source: string, target: string)

  // ---------------------------------------------------------------------
  // Querying and ordering
  // ---------------------------------------------------------------------

  /** The words are ordered by source term. */
  predicate SortedBySource(ws: seq<Word>)
  {
    forall i, j :: 0 <= i < j < |ws| ==> LexLe(ws[i].source, ws[j].source)
  }

  /** Every word of `ws` has a source term no earlier than `key`. */
  predicate AllFrom(key: string, ws: seq<Word>)
  {
    forall j :: 0 <= j < |ws| ==> LexLe(key, ws[j].source)
  }

  /** A lower bound holds of any rearrangement of the same words. */
  lemma AllFromPermutation(key: string, a: seq<Word>, b: seq<Word>)
    requires multiset(a) == multiset(b)
    requires AllFrom(key, a)
    ensures AllFrom(key, b)
  {
    forall j | 0 <= j < |b| ensures LexLe(key, b[j].source) {
      assert b[j] in multiset(b);
      assert b[j] in a;
    }
  }

  /** A lower bound of a sorted list can be put in front of it. */
  lemma PrependSorted(w: Word, ws: seq<Word>)
    requires SortedBySource(ws)
    requires AllFrom(w.source, ws)
    ensures SortedBySource([w] + ws)
  {
    var r := [w] + ws;
    forall i, j | 0 <= i < j < |r| ensures LexLe(r[i].source, r[j].source) {
      if i > 0 {
        assert r[i] == ws[i - 1] && r[j] == ws[j - 1];
      } else {
        assert r[j] == ws[j - 1];
      }
    }
  }

  /** A sorted list is bounded below by its head, and so by anything below it. */
  lemma SortedFrom(key: string, ws: seq<Word>)
    requires SortedBySource(ws) && |ws| > 0
    requires LexLe(key, ws[0].source)
    ensures AllFrom(key, ws)
  {
    forall j | 0 <= j < |ws| ensures LexLe(key, ws[j].source) {
      if j > 0 { LexLeTransitive(key, ws[0].source, ws[j].source); }
    }
  }

  /** The tail of a sorted list is sorted and bounded below by the head. */
  lemma SortedTail(ws: seq<Word>)
    requires SortedBySource(ws) && |ws| > 0
    ensures SortedBySource(ws[1..])
    ensures AllFrom(ws[0].source, ws[1..])
  {
    forall i, j | 0 <= i < j < |ws[1..]| ensures LexLe(ws[1..][i].source, ws[1..][j].source) {
      assert ws[1..][i] == ws[i + 1] && ws[1..][j] == ws[j + 1];
    }
    forall j | 0 <= j < |ws[1..]| ensures LexLe(ws[0].source, ws[1..][j].source) {
      assert ws[1..][j] == ws[j + 1];
    }
  }

  /** The words of `xs` that `keep` accepts, each as often as in `xs`; a
      list sorted by source stays sorted. */
  function Filter(xs: seq<Word>, keep: Word -> bool): (r: seq<Word>)
    ensures forall w :: multiset(r)[w] == if keep(w) then multiset(xs)[w] else 0
    ensures forall w :: w in r <==> w in xs && keep(w)
    ensures SortedBySource(xs) ==> SortedBySource(r)
  {
    if |xs| == 0 then []
    else
      var rest := Filter(xs[1..], keep);
      assert xs == [xs[0]] + xs[1..];
      if keep(xs[0]) then
        PrependKept(xs, rest);
        [xs[0]] + rest
      else
        assert SortedBySource(xs) ==> SortedBySource(rest) by {
          if SortedBySource(xs) { SortedTail(xs); }
        }
        rest
  }

  /** Putting the head of a sorted list in front of a sorted selection of
      its tail keeps the order. */
  lemma PrependKept(xs: seq<Word>, rest: seq<Word>)
    requires |xs| > 0
    requires forall w :: w in rest ==> w in xs[1..]
    requires SortedBySource(xs[1..]) ==> SortedBySource(rest)
    ensures SortedBySource(xs) ==> SortedBySource([xs[0]] + rest)
  {
    if SortedBySource(xs) {
      SortedTail(xs);
      forall j | 0 <= j < |rest| ensures LexLe(xs[0].source, rest[j].source) {
        assert rest[j] in rest;
        var k :| 0 <= k < |xs[1..]| && xs[1..][k] == rest[j];
      }
      PrependSorted(xs[0], rest);
    }
  }

  /** Inserts `w` into a sorted list, keeping it sorted. */
  function Insert(w: Word, ws: seq<Word>): (r: seq<Word>)
    requires SortedBySource(ws)
    ensures SortedBySource(r)
    ensures multiset(r) == multiset(ws) + multiset{w}
  {
    if |ws| == 0 then [w]
    else if LexLe(w.source, ws[0].source) then
      SortedFrom(w.source, ws);
      PrependSorted(w, ws);
      [w] + ws
    else
      SortedTail(ws);
      var rest := Insert(w, ws[1..]);
      LexLeTotal(w.source, ws[0].source);
      assert AllFrom(ws[0].source, ws[1..] + [w]);
      AllFromPermutation(ws[0].source, ws[1..] + [w], rest);
      PrependSorted(ws[0], rest);
      assert ws == [ws[0]] + ws[1..];
      [ws[0]] + rest
  }

  /** The words rearranged into source order (the `order_by('source')` of a
      query; the database's order among equal sources is left open). */
  function SortBySource(ws: seq<Word>): (r: seq<Word>)
    ensures SortedBySource(r)
    ensures multiset(r) == multiset(ws)
  {
    if |ws| == 0 then []
    else
      assert ws == [ws[0]] + ws[1..];
      Insert(ws[0], SortBySource(ws[1..]))
  }

  /** The word belongs to the dictionary of `prj` for `lang`. */
  predicate InDictionary(w: Word, prj: Project, lang: Language)
  {
    w.project == prj && w.language == lang
  }

  /** `Dictionary.objects.filter(project=prj, language=lang)`: the words of
      that project and language, each as often as the table holds it. */
  function Matching(table: seq<Word>, prj: Project, lang: Language): (r: seq<Word>)
    ensures forall w :: multiset(r)[w] == if InDictionary(w, prj, lang) then multiset(table)[w] else 0
    ensures forall w :: w in r <==> w in table && InDictionary(w, prj, lang)
  {
    Filter(table, w => InDictionary(w, prj, lang))
  }

  /** `Dictionary.objects.filter(project=prj, language=lang).order_by('source')`:
      each word of that dictionary exactly as often as the table holds it,
      nothing else, in source order. */
  function DictionaryWords(table: seq<Word>, prj: Project, lang: Language): (r: seq<Word>)
    ensures SortedBySource(r)
    ensures forall w :: multiset(r)[w] == if InDictionary(w, prj, lang) then multiset(table)[w] else 0
    ensures forall w :: w in r <==> w in table && InDictionary(w, prj, lang)
  {
    var m := Matching(table, prj, lang);
    var r := SortBySource(m);
    assert multiset(r) == multiset(m);
    assert forall w :: w in r <==> w in m by {
      forall w ensures w in r <==> w in m {
        assert w in r <==> w in multiset(r);
        assert w in m <==> w in multiset(m);
      }
    }
    r
  }

  // ---------------------------------------------------------------------
  // Export
  // ---------------------------------------------------------------------

  datatype ExportFormat = Csv | Po | Tbx

  /** The values of the `format` parameter the export understands. */
  const KnownFormats: seq<string> := ["csv", "po", "tbx"]

  function FormatName(f: ExportFormat): string
  {
    match f
    case Csv => "csv"
    case Po => "po"
    case Tbx => "tbx"
  }

  /** Reads a format name back; only the known names are formats. */
  function ParseFormat(name: string): (r: Option<ExportFormat>)
    ensures r.Some? <==> name in KnownFormats
    ensures r.Some? ==> FormatName(r.value) == name
  {
    if name == "csv" then Some(Csv)
    else if name == "po" then Some(Po)
    else if name == "tbx" then Some(Tbx)
    else None
  }

  /** Round trip: every format's name reads back as that format. */
  lemma FormatNameRoundTrip(f: ExportFormat)
    ensures ParseFormat(FormatName(f)) == Some(f)
  {
  }

  /** The export format requested by the optional `format` parameter: a
      known name is kept, and a missing or unknown one falls back to CSV. */
  function NormaliseFormat(requested: Option<string>): (r: string)
    ensures r in KnownFormats
    ensures requested.Some? && requested.value in KnownFormats ==> r == requested.value
    ensures (requested.None? || requested.value !in KnownFormats) ==> r == "csv"
  {
    if requested.Some? && ParseFormat(requested.value).Some? then requested.value else "csv"
  }

  /** Normalising an already normalised format changes nothing. */
  lemma NormaliseFormatIdempotent(requested: Option<string>)
    ensures NormaliseFormat(Some(NormaliseFormat(requested))) == NormaliseFormat(requested)
  {
  }

  /** Which writer produces the file: the translate-toolkit stores, or rows
      written by hand with the `csv` module. */
  datatype Builder = Toolkit | Handwritten

  /** The header the PO store is given. */
  datatype PoHeader = PoHeader(
    language: string,
    generator: string,
    projectIdVersion: string,
    languageTeam: string)

  /** One exported entry; the target language is attached to the target
      only where the store records it. */
  datatype Entry = Entry(source: string, target: string, targetLanguage: Option<string>)

  /** What a download response carries. */
  datatype Download = Download(
    format: ExportFormat,
    builder: Builder,
    mimetype: string,
    filename: string,
    disposition: string,
    header: Option<PoHeader>,
    entries: seq<Entry>)

  const Charset: string := "; charset=utf-8"

  /** The media type of each format, before the charset parameter. */
  function MediaType(f: ExportFormat): string
  {
    match f
    case Csv => "text/csv"
    case Po => "text/x-po"
    case Tbx => "application/x-tbx"
  }

  /** The word the file name starts with: the hand-written CSV is a
      "dictionary", the toolkit files a "glossary". */
  function FileStem(f: ExportFormat): string
  {
    if f == Csv then "dictionary" else "glossary"
  }

  /** `<stem>-<project slug>-<language code>.<extension>`. */
  function FileName(stem: string, prj: Project, lang: Language, extension: string): string
  {
    stem + "-" + prj.slug + "-" + lang.code + "." + extension
  }

  /** The entries for the given words, one per word in the same order. */
  function Entries(words: seq<Word>, targetLanguage: Option<string>): (r: seq<Entry>)
    ensures |r| == |words|
    ensures forall i :: 0 <= i < |r| ==>
      r[i] == Entry(words[i].source, words[i].target, targetLanguage)
  {
    if |words| == 0 then [] else [Entry(words[0].source, words[0].target, targetLanguage)] + Entries(words[1..], targetLanguage)
  }

  /** The PO header: the language code, the generating Weblate version, the
      language and project names, and the language team with the address
      of the dictionary page. */
  function PoHeaderFor(prj: Project, lang: Language, version: string, dictionaryUrl: string): (h: PoHeader)
    ensures h.language == lang.code
    ensures |h.generator| >= |"Weblate "| && h.generator[..|"Weblate "|] == "Weblate "
    ensures h.generator[|"Weblate "|..] == version
    ensures h.projectIdVersion == lang.name + " (" + prj.name + ")"
    ensures h.languageTeam == lang.name + " <" + dictionaryUrl + ">"
  {
    PoHeader(
      lang.code,
      "Weblate " + version,
      lang.name + " (" + prj.name + ")",
      lang.name + " <" + dictionaryUrl + ">")
  }

  /** `download_dictionary_ttkit`: a PO store for `po`, and a TBX store for
      anything else. The PO store gets a header naming the language, the
      generating Weblate version and the dictionary's address; only the TBX
      store records the language of each target. */
  function ToolkitDownload(
    exportFormat: string, prj: Project, lang: Language, words: seq<Word>,
    version: string, dictionaryUrl: string): (d: Download)
    ensures d.builder == Toolkit
    ensures d.format == (if exportFormat == "po" then Po else Tbx)
    ensures d.mimetype == MediaType(d.format) + Charset
    ensures d.filename == FileName("glossary", prj, lang, FormatName(d.format))
    ensures d.disposition == "attachment; filename=" + d.filename
    ensures d.header == if d.format == Po then Some(PoHeaderFor(prj, lang, version, dictionaryUrl)) else None
    ensures |d.entries| == |words|
    ensures forall i :: 0 <= i < |words| ==>
      && d.entries[i].source == words[i].source
      && d.entries[i].target == words[i].target
      && d.entries[i].targetLanguage == (if d.format == Tbx then Some(lang.code) else None)
  {
    var isPo := exportFormat == "po";
    var format := if isPo then Po else Tbx;
    var extension := if isPo then "po" else "tbx";
    var hasLang := !isPo;
    var header := if isPo then Some(PoHeaderFor(prj, lang, version, dictionaryUrl)) else None;
    var filename := FileName("glossary", prj, lang, extension);
    Download(
      format, Toolkit, MediaType(format) + Charset, filename,
      "attachment; filename=" + filename, header,
      Entries(words, if hasLang then Some(lang.code) else None))
  }

  /** The hand-written CSV download: one row of source and target per word. */
  function CsvDownload(prj: Project, lang: Language, words: seq<Word>): (d: Download)
    ensures d.format == Csv && d.builder == Handwritten && d.header.None?
    ensures d.mimetype == MediaType(Csv) + Charset
    ensures d.filename == FileName("dictionary", prj, lang, "csv")
    ensures d.disposition == "attachment; filename=" + d.filename
    ensures |d.entries| == |words|
    ensures forall i :: 0 <= i < |words| ==>
      d.entries[i] == Entry(words[i].source, words[i].target, None)
  {
    var filename := FileName("dictionary", prj, lang, "csv");
    Download(
      Csv, Handwritten, MediaType(Csv) + Charset, filename,
      "attachment; filename=" + filename, None, Entries(words, None))
  }

  /** `download_dictionary`: the format is normalised, the project's words
      for the language are fetched in source order, PO and TBX go to the
      toolkit builder and CSV is written by hand, one row per word.
      `version` is the running Weblate version and `dictionaryUrl` the site
      address of the dictionary page; both only reach the PO header. */
  function DownloadDictionary(
    requested: Option<string>, prj: Project, lang: Language, table: seq<Word>,
    version: string, dictionaryUrl: string): (d: Download)
    ensures FormatName(d.format) == NormaliseFormat(requested)
    ensures d.builder == Toolkit <==> d.format != Csv
    ensures d.mimetype == MediaType(d.format) + Charset
    ensures d.filename == FileName(FileStem(d.format), prj, lang, FormatName(d.format))
    ensures d.disposition == "attachment; filename=" + d.filename
    ensures d.header == if d.format == Po then Some(PoHeaderFor(prj, lang, version, dictionaryUrl)) else None
    ensures var words := DictionaryWords(table, prj, lang);
      && |d.entries| == |words|
      && forall i :: 0 <= i < |words| ==>
        && d.entries[i].source == words[i].source
        && d.entries[i].target == words[i].target
        && d.entries[i].targetLanguage == (if d.format == Tbx then Some(lang.code) else None)
  {
    var exportFormat := NormaliseFormat(requested);
    var words := DictionaryWords(table, prj, lang);
    if exportFormat == "po" || exportFormat == "tbx" then
      ToolkitDownload(exportFormat, prj, lang, words, version, dictionaryUrl)
    else
      CsvDownload(prj, lang, words)
  }

  /** The entry is some word of the dictionary of `prj` for `lang`. */
  ghost predicate FromDictionary(e: Entry, table: seq<Word>, prj: Project, lang: Language)
  {
    exists w :: w in table && InDictionary(w, prj, lang) && w.source == e.source && w.target == e.target
  }

  /** The exported entries match the dictionary of the project for the
      language: there are as many entries as matching words, they are in
      source order, and each one is the source and target of a matching
      word. */
  lemma ExportIsDictionary(
    requested: Option<string>, prj: Project, lang: Language, table: seq<Word>,
    version: string, dictionaryUrl: string)
    ensures var d := DownloadDictionary(requested, prj, lang, table, version, dictionaryUrl);
      && |d.entries| == |Matching(table, prj, lang)|
      && (forall i, j :: 0 <= i < j < |d.entries| ==> LexLe(d.entries[i].source, d.entries[j].source))
      && (forall i :: 0 <= i < |d.entries| ==> FromDictionary(d.entries[i], table, prj, lang))
  {
    var d := DownloadDictionary(requested, prj, lang, table, version, dictionaryUrl);
    var words := DictionaryWords(table, prj, lang);
    var matching := Matching(table, prj, lang);
    assert multiset(words) == multiset(matching);
    assert |words| == |multiset(words)| == |multiset(matching)| == |matching|;
    forall i | 0 <= i < |d.entries| ensures FromDictionary(d.entries[i], table, prj, lang) {
      assert words[i] in words;
    }
    forall i, j | 0 <= i < j < |d.entries| ensures LexLe(d.entries[i].source, d.entries[j].source) {
      assert d.entries[i].source == words[i].source && d.entries[j].source == words[j].source;
    }
  }

  /** A PO download made by an imported Weblate (any state `Version.Init`
      can produce) names its version in the header's generator field:
      `Weblate 1.6-dev` exactly for a development build, `Weblate 1.6`
      otherwise. */
  lemma PoGeneratorVersion(st: Version.VersionState, prj: Project, lang: Language, dictionaryUrl: string)
    requires Version.WellFormed(st)
    ensures PoHeaderFor(prj, lang, st.version, dictionaryUrl).generator ==
      (if Version.IsDevBuild(st) then "Weblate 1.6-dev" else "Weblate 1.6")
  {
    var generator := PoHeaderFor(prj, lang, st.version, dictionaryUrl).generator;
    assert generator == "Weblate " + st.version;
    if Version.IsDevBuild(st) {
      assert st.version == "1.6-dev";
    } else {
      assert st.version == "1.6";
    }
  }

  /** A file name built from a stem, a slug and a code ends in its
      extension, whatever dots the slug or the code contain. */
  lemma FileNameExtension(stem: string, prj: Project, lang: Language, extension: string)
    requires '.' !in extension
    ensures var parts := Split(FileName(stem, prj, lang, extension), '.');
      parts[|parts| - 1] == extension
  {
    var front := stem + "-" + prj.slug + "-" + lang.code;
    assert FileName(stem, prj, lang, extension) == front + ['.'] + extension;
    SplitLast(front, extension, '.');
  }

  /** Every download's file name ends in the extension of its format. */
  lemma FormatExtension(f: ExportFormat, prj: Project, lang: Language)
    ensures var parts := Split(FileName(FileStem(f), prj, lang, FormatName(f)), '.');
      parts[|parts| - 1] == FormatName(f)
  {
    var ext := FormatName(f);
    assert '.' !in ext by {
      match f
      case Csv => assert ext == "csv";
      case Po => assert ext == "po";
      case Tbx => assert ext == "tbx";
    }
    FileNameExtension(FileStem(f), prj, lang, ext);
  }

  // ---------------------------------------------------------------------
  // Upload
  // ---------------------------------------------------------------------

  /** What happened to an upload request before its outcome is reported:
      `Dictionary.objects.upload` is not modelled, its result is the count
      (or the exception text) it produced. */
  datatype UploadRequest =
    | NotPost                   // any method but POST
    | InvalidForm               // the upload form did not validate
    | UploadRaised(reason: string) // the import raised an exception
    | Uploaded(count: int)      // the import returned a word count

  datatype Level = Warning | Info | Error

  /** A flash message shown after the redirect. */
  datatype Flash = Flash(level: Level, text: string)

  /** The page every upload redirects to: the dictionary of the project
      (by slug) for the language (by code). */
  datatype Redirect = ShowDictionaryPage(project: string, language: string)

  datatype UploadResponse = UploadResponse(flash: Flash, redirect: Redirect)

  const NoWordsText: string := "No words to import found in file."
  const ImportedPrefix: string := "Imported "
  const ImportedSuffix: string := " words from file."
  const UploadFailedPrefix: string := "File upload has failed: "
  const FormFailedText: string := "Failed to process form!"

  /** `upload_dictionary`: a count of zero warns, any other count informs
      with that count, and an exception, an invalid form or a request that
      is not a POST is an error; all of them redirect to the dictionary. */
  function UploadDictionary(req: UploadRequest, prj: Project, lang: Language): (r: UploadResponse)
    ensures r.redirect == ShowDictionaryPage(prj.slug, lang.code)
    ensures r.flash.level == Warning <==> req == Uploaded(0)
    ensures r.flash.level == Info <==> req.Uploaded? && req.count != 0
    ensures r.flash.level == Error <==> !req.Uploaded?
    ensures req == Uploaded(0) ==> r.flash.text == NoWordsText
    ensures req.Uploaded? && req.count != 0 ==>
      r.flash.text == ImportedPrefix + FormatInt(req.count) + ImportedSuffix
    ensures req.UploadRaised? ==> r.flash.text == UploadFailedPrefix + req.reason
    ensures req == NotPost || req == InvalidForm ==> r.flash.text == FormFailedText
  {
    var flash :=
      match req
      case Uploaded(count) =>
        if count == 0 then Flash(Warning, NoWordsText)
        else Flash(Info, ImportedPrefix + FormatInt(count) + ImportedSuffix)
      case UploadRaised(reason) => Flash(Error, UploadFailedPrefix + reason)
      case InvalidForm => Flash(Error, FormFailedText)
      case NotPost => Flash(Error, FormFailedText);
    UploadResponse(flash, ShowDictionaryPage(prj.slug, lang.code))
  }

  /** Round trip: the number in an informational message is the imported
      count, read back with `int()`. */
  lemma ImportedCountReadsBack(count: int, prj: Project, lang: Language)
    requires count != 0
    ensures var text := UploadDictionary(Uploaded(count), prj, lang).flash.text;
      && |ImportedPrefix| + |ImportedSuffix| <= |text|
      && text[..|ImportedPrefix|] == ImportedPrefix
      && text[|text| - |ImportedSuffix|..] == ImportedSuffix
      && text[|ImportedPrefix|..|text| - |ImportedSuffix|] == FormatInt(count)
      && ParseInt(text[|ImportedPrefix|..|text| - |ImportedSuffix|]) == Success(count)
  {
    var text := UploadDictionary(Uploaded(count), prj, lang).flash.text;
    var number := FormatInt(count);
    assert text == ImportedPrefix + number + ImportedSuffix;
    Pieces(ImportedPrefix, number, ImportedSuffix);
    ParseFormatInt(count);
  }

  // ---------------------------------------------------------------------
  // Listing by first letter
  // ---------------------------------------------------------------------

  /** The letter form of the listing page: `LetterForm`'s validation is not
      part of this model, only whether it accepted a letter. */
  datatype LetterForm = InvalidLetterForm | ValidLetterForm(letter: string)

  /** What the listing page shows before pagination. */
  datatype Listing = Listing(letter: string, words: seq<Word>)

  /** The letter filter of `show_dictionary`: an accepted, non-empty letter
      keeps the words whose source starts with it, ignoring case; otherwise
      nothing is filtered and the letter shown is empty. */
  function FilterByLetter(words: seq<Word>, form: LetterForm): (r: Listing)
    ensures form.ValidLetterForm? && form.letter != "" ==> r.letter == form.letter
    ensures !(form.ValidLetterForm? && form.letter != "") ==> r.letter == "" && r.words == words
    ensures forall w :: w in r.words <==> w in words && IStartsWith(w.source, r.letter)
    ensures forall w :: multiset(r.words)[w] == (if IStartsWith(w.source, r.letter) then multiset(words)[w] else 0)
    ensures SortedBySource(words) ==> SortedBySource(r.words)
  {
    if form.ValidLetterForm? && form.letter != "" then
      Listing(form.letter, Filter(words, (w: Word) => IStartsWith(w.source, form.letter)))
    else
      assert forall w: Word :: IStartsWith(w.source, "") by {
        forall w: Word { IStartsWithEmpty(w.source); }
      }
      Listing("", words)
  }

  /** `show_dictionary` before pagination: the project's words for the
      language, in source order, restricted by the letter filter. */
  function ShowDictionary(table: seq<Word>, prj: Project, lang: Language, form: LetterForm): (r: Listing)
    ensures SortedBySource(r.words)
    ensures forall w :: w in r.words <==>
      w in table && InDictionary(w, prj, lang) && IStartsWith(w.source, r.letter)
    ensures r.letter == (if form.ValidLetterForm? && form.letter != "" then form.letter else "")
    ensures forall w :: (multiset(r.words)[w] ==
      if InDictionary(w, prj, lang) && IStartsWith(w.source, r.letter) then multiset(table)[w] else 0)
    ensures r.letter == "" ==> multiset(r.words) == multiset(DictionaryWords(table, prj, lang))
  {
    var r := FilterByLetter(DictionaryWords(table, prj, lang), form);
    assert r.letter == "" ==> multiset(r.words) == multiset(DictionaryWords(table, prj, lang)) by {
      if r.letter == "" {
        forall w: Word { IStartsWithEmpty(w.source); }
      }
    }
    r
  }

  /** Applying the letter filter to a listing it produced changes nothing. */
  lemma {:induction false} FilterByLetterIdempotent(words: seq<Word>, form: LetterForm)
    ensures var once := FilterByLetter(words, form);
      FilterByLetter(once.words, form) == once
  {
    var once := FilterByLetter(words, form);
    if form.ValidLetterForm? && form.letter != "" {
      FilterKeepsAccepted(once.words, (w: Word) => IStartsWith(w.source, form.letter));
    }
  }

  /** Filtering a list whose words all pass returns the list unchanged. */
  lemma {:induction false} FilterKeepsAccepted(xs: seq<Word>, keep: Word -> bool)
    requires forall w :: w in xs ==> keep(w)
    ensures Filter(xs, keep) == xs
    decreases |xs|
  {
    if |xs| > 0 {
      var rest := xs[1..];
      assert xs == [xs[0]] + rest;
      assert keep(xs[0]) by { assert xs[0] in xs; }
      assert forall w :: w in rest ==> w in xs;
      FilterKeepsAccepted(rest, keep);
      assert Filter(xs, keep) == [xs[0]] + Filter(rest, keep);
    }
  }
}

=== FILE: text.dfy ===
/** String utilities the two core files lean on: Python's `str.split` on a
    single character and its inverse `join`, decimal formatting (`%d`) and
    parsing (`int()`), ASCII case folding for case-insensitive prefixes, and
    the code-point order a database uses for `ORDER BY`. */
module Text {
  import opened Wrappers

  // ---------------------------------------------------------------------
  // Splitting and joining on one delimiter character
  // ---------------------------------------------------------------------

  /** Number of occurrences of `d` in `s`. */
  function Count(s: string, d: char): nat
  {
    if |s| == 0 then 0 else (if s[0] == d then 1 else 0) + Count(s[1..], d)
  }

  /** `d.join(parts)`: the parts with one `d` between neighbours. */
  function Join(parts: seq<string>, d: char): string
  {
    if |parts| == 0 then ""
    else if |parts| == 1 then parts[0]
    else parts[0] + [d] + Join(parts[1..], d)
  }

  /** True when no part contains the delimiter. */
  predicate Undelimited(parts: seq<string>, d: char)
  {
    forall i :: 0 <= i < |parts| ==> d !in parts[i]
  }

  /** `s.split(d)`: the maximal `d`-free pieces of `s`, in order. There is
      always one more piece than there are delimiters, and joining the
      pieces back gives `s`. */
  function Split(s: string, d: char): (parts: seq<string>)
    ensures |parts| == Count(s, d) + 1
    ensures Undelimited(parts, d)
    ensures Join(parts, d) == s
  {
    if |s| == 0 then [""]
    else
      var rest := Split(s[1..], d);
      if s[0] == d then
        assert s == [d] + s[1..];
        [""] + rest
      else
        var parts := [[s[0]] + rest[0]] + rest[1..];
        assert parts[1..] == rest[1..];
        assert s == [s[0]] + s[1..];
        parts
  }

  /** If two strings agree and one has its first `d` earlier, the other
      holds a `d` at that position. */
  lemma ShorterMeetsDelimiter(a: string, x: string, b: string, y: string, d: char)
    requires |a| < |b|
    requires a + [d] + x == b + [d] + y
    ensures d in b
  {
    assert b[|a|] == (b + [d] + y)[|a|] == (a + [d] + x)[|a|];
  }

  /** A delimiter-free string followed by `d` is split at that `d` and no
      earlier: the two sides of the first delimiter are determined. */
  lemma FirstDelimiter(a: string, x: string, b: string, y: string, d: char)
    requires d !in a && d !in b
    requires a + [d] + x == b + [d] + y
    ensures a == b && x == y
  {
    var s := a + [d] + x;
    if |a| < |b| {
      ShorterMeetsDelimiter(a, x, b, y, d);
      assert false;
    } else if |b| < |a| {
      ShorterMeetsDelimiter(b, y, a, x, d);
      assert false;
    }
    assert a == s[..|a|] == b;
    assert x == s[|a| + 1..] == y;
  }

  /** Joining two or more parts puts a delimiter right after the first. */
  lemma JoinHasDelimiter(parts: seq<string>, d: char)
    requires |parts| >= 2
    ensures d in Join(parts, d)
  {
    var j := Join(parts, d);
    assert j[|parts[0]|] == d;
  }

  /** Joining is injective on delimiter-free, non-empty lists of parts. */
  lemma {:induction false} JoinInjective(p: seq<string>, q: seq<string>, d: char)
    requires |p| >= 1 && |q| >= 1
    requires Undelimited(p, d) && Undelimited(q, d)
    requires Join(p, d) == Join(q, d)
    ensures p == q
    decreases |p|
  {
    if |p| == 1 && |q| == 1 {
    } else if |p| == 1 {
      JoinHasDelimiter(q, d);
      assert false;
    } else if |q| == 1 {
      JoinHasDelimiter(p, d);
      assert false;
    } else {
      assert d !in p[0] && d !in q[0];
      FirstDelimiter(p[0], Join(p[1..], d), q[0], Join(q[1..], d), d);
      assert Undelimited(p[1..], d) by {
        forall i | 0 <= i < |p[1..]| ensures d !in p[1..][i] {
          assert p[1..][i] == p[i + 1];
        }
      }
      assert Undelimited(q[1..], d) by {
        forall i | 0 <= i < |q[1..]| ensures d !in q[1..][i] {
          assert q[1..][i] == q[i + 1];
        }
      }
      JoinInjective(p[1..], q[1..], d);
      assert p == [p[0]] + p[1..];
      assert q == [q[0]] + q[1..];
    }
  }

  /** Round trip: splitting a join of delimiter-free parts gives the parts. */
  lemma SplitJoin(parts: seq<string>, d: char)
    requires |parts| >= 1
    requires Undelimited(parts, d)
    ensures Split(Join(parts, d), d) == parts
  {
    JoinInjective(Split(Join(parts, d), d), parts, d);
  }

  /** Appending one more delimiter-free part appends one more piece. */
  lemma {:induction false} JoinSnoc(parts: seq<string>, e: string, d: char)
    requires |parts| >= 1
    ensures Join(parts + [e], d) == Join(parts, d) + [d] + e
    decreases |parts|
  {
    if |parts| == 1 {
      assert parts + [e] == [parts[0], e];
    } else {
      assert (parts + [e])[1..] == parts[1..] + [e];
      JoinSnoc(parts[1..], e, d);
    }
  }

  /** The last piece of `s + [d] + e`, for a `d`-free `e`, is `e`. */
  lemma SplitLast(s: string, e: string, d: char)
    requires d !in e
    ensures var parts := Split(s + [d] + e, d); parts[|parts| - 1] == e
  {
    var ps := Split(s, d);
    JoinSnoc(ps, e, d);
    assert Undelimited(ps + [e], d) by {
      forall i | 0 <= i < |ps + [e]| ensures d !in (ps + [e])[i] {
        if i < |ps| { assert (ps + [e])[i] == ps[i]; }
      }
    }
    SplitJoin(ps + [e], d);
  }

  // ---------------------------------------------------------------------
  // Decimal numbers: Python's "%d" formatting and int() parsing
  // ---------------------------------------------------------------------

  predicate IsDigit(c: char)
  {
    '0' <= c <= '9'
  }

  predicate AllDigits(s: string)
  {
    forall i :: 0 <= i < |s| ==> IsDigit(s[i])
  }

  function DigitValue(c: char): nat
    requires IsDigit(c)
  {
    (c as int) - ('0' as int)
  }

  function DigitChar(n: nat): (c: char)
    requires n < 10
    ensures IsDigit(c) && DigitValue(c) == n
  {
    (('0' as int) + n) as char
  }

  /** The value of a string of decimal digits, most significant first. */
  function DigitsValue(s: string): nat
    requires AllDigits(s)
  {
    if |s| == 0 then 0 else DigitsValue(s[..|s| - 1]) * 10 + DigitValue(s[|s| - 1])
  }

  /** The canonical decimal spelling of `n`: digits only, no leading zero,
      and reading it back gives `n`. */
  function Decimal(n: nat): (s: string)
    ensures |s| >= 1 && AllDigits(s)
    ensures s[0] == '0' ==> s == "0"
    ensures DigitsValue(s) == n
  {
    if n < 10 then [DigitChar(n)]
    else
      var s := Decimal(n / 10) + [DigitChar(n % 10)];
      assert s[..|s| - 1] == Decimal(n / 10);
      s
  }

  /** Python's `'%d' % n`: a minus sign for negative numbers, then the digits. */
  function FormatInt(n: int): (s: string)
    ensures |s| >= 1
    ensures n < 0 <==> s[0] == '-'
    ensures n >= 0 ==> AllDigits(s) && DigitsValue(s) == n && (s[0] == '0' ==> s == "0")
    ensures n < 0 ==> |s| >= 2 && AllDigits(s[1..]) && DigitsValue(s[1..]) == -n && s[1] != '0'
  {
    if n < 0 then "-" + Decimal(-n) else Decimal(n)
  }

  /** The three pieces of a concatenation can be cut back out of it. */
  lemma Pieces(a: string, b: string, c: string)
    ensures var s := a + b + c;
      && |s| == |a| + |b| + |c|
      && s[..|a|] == a
      && s[|a|..|a| + |b|] == b
      && s[|a| + |b|..] == c
  {
  }

  /** The characters Python 2's `str.strip()` removes around a number. */
  predicate IsSpace(c: char)
  {
    c == ' ' || c == '\t' || c == '\n' || c == '\r' || c == '\U{0B}' || c == '\U{0C}'
  }

  function TrimLeft(s: string): (r: string)
    ensures |r| <= |s| && r == s[|s| - |r|..]
    ensures |r| > 0 ==> !IsSpace(r[0])
  {
    if |s| > 0 && IsSpace(s[0]) then TrimLeft(s[1..]) else s
  }

  function TrimRight(s: string): (r: string)
    ensures |r| <= |s| && r == s[..|r|]
    ensures |r| > 0 ==> !IsSpace(r[|r| - 1])
  {
    if |s| > 0 && IsSpace(s[|s| - 1]) then TrimRight(s[..|s| - 1]) else s
  }

  /** The reason `int()` refuses a string (Python raises ValueError). */
  datatype ParseError = InvalidLiteral(literal: string)

  /** `s` with Python 2's whitespace removed at both ends. */
  function Strip(s: string): string
  {
    TrimRight(TrimLeft(s))
  }

  /** A stripped literal: one optional sign, then at least one digit. */
  /** An optionally signed, non-empty run of ASCII digits: the only text
      `int()` accepts once the surrounding whitespace is gone. */
  predicate IsIntLiteral(t: string)
  {
    var k := if |t| > 0 && (t[0] == '-' || t[0] == '+') then 1 else 0;
    |t| > k && AllDigits(t[k..])
  }

  function ParseSigned(t: string): Result<int, ParseError>
  {
    if |t| > 0 && (t[0] == '-' || t[0] == '+') then
      var body := t[1..];
      if |body| > 0 && AllDigits(body) then
        Success(if t[0] == '-' then -(DigitsValue(body) as int) else DigitsValue(body))
      else Failure(InvalidLiteral(t))
    else if |t| > 0 && AllDigits(t) then Success(DigitsValue(t))
    else Failure(InvalidLiteral(t))
  }

  /** Python's `int(s)` on a byte string: surrounding whitespace is ignored,
      one optional sign may lead, and at least one decimal digit must
      follow; anything else is an error. */
  function ParseInt(s: string): (r: Result<int, ParseError>)
    ensures r.Failure? ==> r.error == InvalidLiteral(s)
    ensures Strip(s) == "" ==> r.Failure?
    ensures r.Success? <==> IsIntLiteral(Strip(s))
  {
    match ParseSigned(Strip(s))
    case Success(n) => Success(n)
    case Failure(_) => Failure(InvalidLiteral(s))
  }

  /** Round trip: `int('%d' % n) == n` for every integer. */
  lemma ParseFormatInt(n: int)
    ensures ParseInt(FormatInt(n)) == Success(n)
  {
    var s := FormatInt(n);
    var d := if n < 0 then Decimal(-n) else Decimal(n);
    assert !IsSpace(s[0]);
    assert !IsSpace(s[|s| - 1]) by {
      assert s[|s| - 1] == d[|d| - 1];
      assert IsDigit(d[|d| - 1]);
    }
    assert TrimLeft(s) == s;
    assert TrimRight(s) == s;
    if n < 0 {
      assert s[1..] == d;
    } else {
      assert IsDigit(s[0]);
    }
  }

  /** A plain run of digits reads as its value. */
  lemma ParseIntDigits(s: string)
    requires |s| > 0 && AllDigits(s)
    ensures ParseInt(s) == Success(DigitsValue(s))
  {
    assert !IsSpace(s[0]) by { assert IsDigit(s[0]); }
    assert !IsSpace(s[|s| - 1]) by { assert IsDigit(s[|s| - 1]); }
    assert TrimLeft(s) == s;
    assert TrimRight(s) == s;
    assert Strip(s) == s;
    assert s[0] != '-' && s[0] != '+' by { assert IsDigit(s[0]); }
  }

  /** A string that starts with neither whitespace, sign nor digit is refused. */
  lemma ParseIntRejectsLetter(s: string)
    requires |s| > 0 && !IsSpace(s[0])
    requires !IsDigit(s[0]) && s[0] != '-' && s[0] != '+'
    ensures ParseInt(s) == Failure(InvalidLiteral(s))
  {
    assert TrimLeft(s) == s;
    var t := TrimRight(s);
    if |t| > 0 {
      assert t[0] == s[0];
    }
  }

  // ---------------------------------------------------------------------
  // Case-insensitive prefixes
  // ---------------------------------------------------------------------

  function LowerChar(c: char): char
  {
    if 'A' <= c <= 'Z' then ((c as int) + 32) as char else c
  }

  /** `s.lower()` restricted to ASCII letters. */
  function Lower(s: string): (r: string)
    ensures |r| == |s|
    ensures forall i :: 0 <= i < |s| ==> r[i] == LowerChar(s[i])
  {
    if |s| == 0 then "" else [LowerChar(s[0])] + Lower(s[1..])
  }

  /** `s` begins with `prefix`, letters compared without regard to case
      (the `istartswith` lookup). */
  predicate IStartsWith(s: string, prefix: string)
  {
    |prefix| <= |s| && Lower(s[..|prefix|]) == Lower(prefix)
  }

  /** Case folding is idempotent. */
  lemma LowerLower(s: string)
    ensures Lower(Lower(s)) == Lower(s)
  {
  }

  /** Every string begins with the empty prefix, in any case. */
  lemma IStartsWithEmpty(s: string)
    ensures IStartsWith(s, "")
  {
  }

  /** A case-insensitive prefix relation that ignores case on both sides:
      lower-casing the prefix, or the string, does not change the verdict. */
  lemma IStartsWithCaseBlind(s: string, prefix: string)
    ensures IStartsWith(s, prefix) <==> IStartsWith(s, Lower(prefix))
    ensures IStartsWith(s, prefix) <==> IStartsWith(Lower(s), prefix)
  {
    LowerLower(prefix);
    if |prefix| <= |s| {
      LowerHead(s, |prefix|);
    }
  }

  /** Lower-casing a string and then taking its head is the same as
      lower-casing the head, and a second lower-casing changes nothing. */
  lemma LowerHead(s: string, k: nat)
    requires k <= |s|
    ensures Lower(Lower(s)[..k]) == Lower(s[..k])
  {
    var a := Lower(s)[..k];
    var b := Lower(s[..k]);
    assert a == b by {
      forall i | 0 <= i < k ensures a[i] == b[i] {
        assert a[i] == LowerChar(s[i]);
      }
    }
    LowerLower(s[..k]);
  }

  // ---------------------------------------------------------------------
  // Code-point lexicographic order
  // ---------------------------------------------------------------------

  /** `a` sorts no later than `b`: compare character by character, and a
      proper prefix sorts first. */
  predicate LexLe(a: string, b: string)
  {
    if |a| == 0 then true
    else if |b| == 0 then false
    else if a[0] != b[0] then a[0] < b[0]
    else LexLe(a[1..], b[1..])
  }

  lemma {:induction false} LexLeTotal(a: string, b: string)
    ensures LexLe(a, b) || LexLe(b, a)
    decreases |a|
  {
    if |a| > 0 && |b| > 0 && a[0] == b[0] { LexLeTotal(a[1..], b[1..]); }
  }

  lemma {:induction false} LexLeTransitive(a: string, b: string, c: string)
    requires LexLe(a, b) && LexLe(b, c)
    ensures LexLe(a, c)
    decreases |a|
  {
    if |a| > 0 && |b| > 0 && |c| > 0 && a[0] == b[0] == c[0] {
      LexLeTransitive(a[1..], b[1..], c[1..]);
    }
  }

  lemma {:induction false} LexLeAntisymmetric(a: string, b: string)
    requires LexLe(a, b) && LexLe(b, a)
    ensures a == b
    decreases |a|
  {
    if |a| > 0 && |b| > 0 {
      LexLeAntisymmetric(a[1..], b[1..]);
      assert a == [a[0]] + a[1..];
      assert b == [b[0]] + b[1..];
    }
  }
}

=== FILE: version.dfy ===
/** The version state Weblate computes when its top-level package is first
    imported (weblate/__init__.py), and the documentation links built from it.

    The filesystem test for a `.git` directory, the import of GitPython and
    the `git describe` call are not modelled as effects: their combined
    outcome is the `GitProbe` input of `Init`. */
module Version {
  import opened Wrappers
  import opened Text

  /** The hard-coded release number. */
  const BaseVersion: string := "1.6"

  /** Appended to the version of a development checkout. */
  const DevSuffix: string := "-dev"

  /** A checkout fewer than this many commits past its tag counts as the release. */
  const ReleaseDistance: int := 20

  /** Everything in a documentation link before the version segment. */
  const DocRoot: string := "http://weblate.readthedocs.org/en/"

  /** The version segment used for development checkouts. */
  const LatestDocs: string := "latest"

  /** What probing the environment at import time yields. */
  datatype GitProbe =
    | NotACheckout              // no `.git` next to the package
    | GitUnavailable            // `import git` raised ImportError
    | DescribeFailed            // `git describe` raised GitCommandError
    | Described(output: string) // what `git describe` printed
    | OtherGitError(reason: string) // `git.Repo` or `describe` raised anything else

  /** The module-level globals VERSION, RUNNING_GIT and GIT_RELEASE. */
  datatype VersionState = VersionState(version: string, runningGit: bool, gitRelease: bool)

  /** An exception that escapes the import of the package. */
  datatype InitError =
    | InvalidCommitCount(cause: ParseError) // int() of the third describe field
    | UnboundGitName                        // NameError while matching the except clause
    | UncaughtGitError(reason: string)      // neither ImportError nor GitCommandError

  /** A development build: inside a checkout, and too far from a release tag. */
  predicate IsDevBuild(st: VersionState)
  {
    st.runningGit && !st.gitRelease
  }

  /** The states the import can leave behind: the version carries the
      development suffix exactly for a development build, and outside a
      checkout the build is never marked as a release. */
  predicate WellFormed(st: VersionState)
  {
    && st.version == (if IsDevBuild(st) then BaseVersion + DevSuffix else BaseVersion)
    && (!st.runningGit ==> !st.gitRelease)
  }

  /** Whether the dash-separated fields of a `git describe` output name a
      release: they do when there are at most two fields, and otherwise
      exactly when the third field reads as a number below
      `ReleaseDistance`. A third field that is not a number makes `int()`
      raise, and it is the third field whatever the tag looks like. */
  function ClassifyFields(parts: seq<string>): (r: Result<bool, ParseError>)
    ensures |parts| <= 2 ==> r == Success(true)
    ensures |parts| > 2 && ParseInt(parts[2]).Success? ==> r == Success(ParseInt(parts[2]).value < ReleaseDistance)
    ensures |parts| > 2 && ParseInt(parts[2]).Failure? ==> r == Failure(InvalidLiteral(parts[2]))
  {
    if |parts| <= 2 then Success(true)
    else
      match ParseInt(parts[2])
      case Success(n) => Success(n < ReleaseDistance)
      case Failure(e) => Failure(e)
  }

  /** `GIT_RELEASE` for a `git describe` output: its fields are the pieces
      between dashes. */
  function ClassifyDescribe(describe: string): (r: Result<bool, ParseError>)
    ensures Count(describe, '-') <= 1 ==> r == Success(true)
    ensures r.Failure? ==> Count(describe, '-') >= 2
  {
    ClassifyFields(Split(describe, '-'))
  }

  /** The fields read are exactly the dash-free pieces the output was built
      from: a describe string made of at most two such pieces is a release,
      and one made of more is judged on its third piece alone. */
  lemma ClassifyJoinedFields(parts: seq<string>)
    requires |parts| >= 1
    requires Undelimited(parts, '-')
    ensures ClassifyDescribe(Join(parts, '-')) == ClassifyFields(parts)
  {
    SplitJoin(parts, '-');
  }

  /** A describe string of three or four dash-free fields is classified on
      those fields. */
  lemma DashedThree(a: string, b: string, c: string)
    requires '-' !in a && '-' !in b && '-' !in c
    ensures ClassifyDescribe(a + "-" + b + "-" + c) == ClassifyFields([a, b, c])
  {
    var parts := [a, b, c];
    assert parts[1..] == [b, c] && parts[1..][1..] == [c];
    assert Join(parts[1..], '-') == b + "-" + c;
    assert Join(parts, '-') == a + "-" + b + "-" + c;
    ClassifyJoinedFields(parts);
  }

  lemma DashedFour(a: string, b: string, c: string, e: string)
    requires '-' !in a && '-' !in b && '-' !in c && '-' !in e
    ensures ClassifyDescribe(a + "-" + b + "-" + c + "-" + e) == ClassifyFields([a, b, c, e])
  {
    var parts := [a, b, c, e];
    assert parts[1..] == [b, c, e] && parts[1..][1..] == [c, e] && parts[1..][1..][1..] == [e];
    assert Join(parts[1..][1..], '-') == c + "-" + e;
    assert Join(parts[1..], '-') == b + "-" + c + "-" + e;
    assert Join(parts, '-') == a + "-" + b + "-" + c + "-" + e;
    ClassifyJoinedFields(parts);
  }

  /** A describe string `<tag>-<version>-<n>-<hash>` (a dashed tag, `n`
      commits past it, the abbreviated hash) is a release exactly when `n`
      is below 20. */
  lemma ClassifyCommitDistance(tag: string, version: string, n: nat, hash: string)
    requires '-' !in tag && '-' !in version && '-' !in hash
    ensures ClassifyDescribe(tag + "-" + version + "-" + FormatInt(n) + "-" + hash) == Success(n < 20)
  {
    var count := FormatInt(n);
    assert '-' !in count by { assert AllDigits(count); }
    ParseFormatInt(n);
    DashedFour(tag, version, count, hash);
  }

  /** A describe string `<tag>-<n>-<hash>` of a tag without a dash puts the
      hash in the third field; a hash starting with a letter (git writes
      `g` before it) makes `int()` raise on it. */
  lemma ClassifyHashAsCount(tag: string, n: nat, hash: string)
    requires '-' !in tag && '-' !in hash
    requires |hash| > 0 && ('a' <= hash[0] <= 'z' || 'A' <= hash[0] <= 'Z')
    ensures ClassifyDescribe(tag + "-" + FormatInt(n) + "-" + hash) == Failure(InvalidLiteral(hash))
  {
    var count := FormatInt(n);
    assert '-' !in count by { assert AllDigits(count); }
    ParseIntRejectsLetter(hash);
    DashedThree(tag, count, hash);
  }

  /** `weblate-1.6-5-gabc`: five commits past a dashed tag is the release. */
  lemma ClassifyNearTag()
    ensures ClassifyDescribe("weblate" + "-" + "1.6" + "-" + "5" + "-" + "gabc") == Success(true)
  {
    assert FormatInt(5) == "5";
    ClassifyCommitDistance("weblate", "1.6", 5, "gabc");
  }

  /** `weblate-1.6-25-gabc`: twenty-five commits past it is not. */
  lemma ClassifyFarFromTag()
    ensures ClassifyDescribe("weblate" + "-" + "1.6" + "-" + "25" + "-" + "gabc") == Success(false)
  {
    assert FormatInt(25) == "25";
    ClassifyCommitDistance("weblate", "1.6", 25, "gabc");
  }

  /** `v1.6-5-gabc`: a tag without a dash puts the commit hash into the
      third field, which `int()` refuses. */
  lemma ClassifyUndashedTag()
    ensures ClassifyDescribe("v1.6" + "-" + "5" + "-" + "gabc") == Failure(InvalidLiteral("gabc"))
  {
    assert FormatInt(5) == "5";
    ClassifyHashAsCount("v1.6", 5, "gabc");
  }

  /** The state after the git probe, with an import failure of GitPython
      handled as the handler's comment says it should be: RUNNING_GIT drops
      to false and the version is left alone. An exception the handler does
      not name, from the repository probe or from `int()`, escapes the import. */
  function Init(probe: GitProbe): (r: Result<VersionState, InitError>)
    ensures r.Success? ==> WellFormed(r.value)
    ensures r.Failure? <==>
      probe.OtherGitError? || (probe.Described? && ClassifyDescribe(probe.output).Failure?)
    ensures probe.OtherGitError? ==> r == Failure(UncaughtGitError(probe.reason))
    ensures r.Success? ==> (r.value.runningGit <==> probe.Described?)
    ensures r.Success? && probe.Described? ==>
      ClassifyDescribe(probe.output) == Success(r.value.gitRelease)
    ensures probe.Described? && ClassifyDescribe(probe.output).Failure? ==>
      r == Failure(InvalidCommitCount(ClassifyDescribe(probe.output).error))
  {
    match probe
    case NotACheckout => Success(VersionState(BaseVersion, false, false))
    case GitUnavailable => Success(VersionState(BaseVersion, false, false))
    case DescribeFailed => Success(VersionState(BaseVersion, false, false))
    case OtherGitError(reason) => Failure(UncaughtGitError(reason))
    case Described(output) =>
      match ClassifyDescribe(output)
      case Failure(e) => Failure(InvalidCommitCount(e))
      case Success(release) =>
        Success(VersionState(if release then BaseVersion else BaseVersion + DevSuffix, true, release))
  }

  /** The state after the git probe as the code is written: the except
      clause names `git.exc.GitCommandError`, which cannot be evaluated when
      `import git` itself failed, so a NameError escapes instead. */
  function InitAsWritten(probe: GitProbe): (r: Result<VersionState, InitError>)
    ensures probe != GitUnavailable ==> r == Init(probe)
    ensures probe == GitUnavailable ==> r.Failure?
  {
    if probe == GitUnavailable then Failure(UnboundGitName) else Init(probe)
  }

  /** The discrepancy: without GitPython the import fails as written,
      while the intended handling yields a plain, non-git version. */
  lemma MissingGitPythonEscapes()
    ensures InitAsWritten(GitUnavailable) == Failure(UnboundGitName)
    ensures Init(GitUnavailable) == Success(VersionState(BaseVersion, false, false))
  {
  }

  /** `-dev` is added once, exactly for a development build; every other
      successful import keeps the base version. */
  lemma {:induction false} InitVersion(probe: GitProbe)
    requires Init(probe).Success?
    ensures var st := Init(probe).value;
      && (st.version == BaseVersion + DevSuffix <==> probe.Described? && ClassifyDescribe(probe.output) == Success(false))
      && (st.version == BaseVersion <==> !IsDevBuild(st))
  {
    var st := Init(probe).value;
    assert BaseVersion != BaseVersion + DevSuffix;
    if probe.Described? {
      assert ClassifyDescribe(probe.output) == Success(st.gitRelease);
    }
  }

  /** The version segment of a documentation link. */
  function DocVersion(st: VersionState): (seg: string)
    ensures seg == LatestDocs <==> IsDevBuild(st)
    ensures !IsDevBuild(st) ==> seg == "weblate-" + st.version
  {
    if IsDevBuild(st) then LatestDocs
    else
      var seg := "weblate-" + st.version;
      assert seg[0] != LatestDocs[0];
      seg
  }

  /** The link to a documentation page, before any anchor. */
  function DocPage(st: VersionState, page: string): string
  {
    DocRoot + DocVersion(st) + "/" + page + ".html"
  }

  /** `get_doc_url(page, anchor)`: the page link, followed by `#anchor`
      when the anchor is not empty. */
  function DocUrl(st: VersionState, page: string, anchor: string): (url: string)
    ensures anchor == "" ==> url == DocPage(st, page)
    ensures anchor != "" ==> |url| == |DocPage(st, page)| + 1 + |anchor|
    ensures |DocPage(st, page)| <= |url| && url[..|DocPage(st, page)|] == DocPage(st, page)
    ensures |anchor| <= |url| && url[|url| - |anchor|..] == anchor
    ensures anchor != "" ==> url[|DocPage(st, page)|] == '#'
  {
    var base := DocPage(st, page);
    if anchor != "" then base + "#" + anchor else base
  }

  /** The link of a state reached by the import has no `#` before the
      anchor, whatever the page name, if the page name has none. */
  lemma DocPageUndelimited(st: VersionState, page: string)
    requires WellFormed(st)
    requires '#' !in page
    ensures '#' !in DocPage(st, page)
  {
    var seg := DocVersion(st);
    assert '#' !in seg by {
      if !IsDevBuild(st) {
        assert seg == "weblate-" + st.version;
        assert st.version == BaseVersion;
        assert forall i :: 0 <= i < |seg| ==> seg[i] != '#';
      }
    }
    var url := DocPage(st, page);
    assert forall i :: 0 <= i < |url| ==> url[i] != '#' by {
      forall i | 0 <= i < |url| ensures url[i] != '#' {
        var a := |DocRoot|;
        var b := a + |seg| + 1;
        if i < a { assert url[i] == DocRoot[i]; }
        else if i < a + |seg| { assert url[i] == seg[i - a]; }
        else if i < b { assert url[i] == '/'; }
        else if i < b + |page| { assert url[i] == page[i - b]; }
        else { assert url[i] == ".html"[i - b - |page|]; }
      }
    }
  }

  /** Round trip: splitting a link at `#` gives back the page link, and the
      anchor if there is one; so an empty anchor adds nothing and a non-empty
      one is appended exactly once. */
  lemma DocUrlAnchorRoundTrip(st: VersionState, page: string, anchor: string)
    requires WellFormed(st)
    requires '#' !in page && '#' !in anchor
    ensures Split(DocUrl(st, page, anchor), '#') ==
      if anchor == "" then [DocPage(st, page)] else [DocPage(st, page), anchor]
  {
    DocPageUndelimited(st, page);
    if anchor == "" {
      SplitJoin([DocPage(st, page)], '#');
    } else {
      assert Join([DocPage(st, page), anchor], '#') == DocUrl(st, page, anchor);
      SplitJoin([DocPage(st, page), anchor], '#');
    }
  }

  /** `sub` occurs in `s` starting at index `i`. */
  predicate OccursAt(s: string, sub: string, i: int)
  {
    0 <= i && i + |sub| <= |s| && s[i..i + |sub|] == sub
  }

  /** `s` contains `sub` somewhere. */
  ghost predicate Contains(s: string, sub: string)
  {
    exists i :: OccursAt(s, sub, i)
  }

  /** A string without a `d` right after a `-` does not contain `-dev`. */
  lemma NoDashD(s: string)
    requires s == LatestDocs || s == "weblate-" + BaseVersion
    ensures !Contains(s, DevSuffix)
  {
    assert forall i :: 0 <= i < |s| - 1 ==> !(s[i] == '-' && s[i + 1] == 'd');
    forall i | 0 <= i && i + |DevSuffix| <= |s|
      ensures !OccursAt(s, DevSuffix, i)
    {
      assert s[i..i + |DevSuffix|][0] == s[i];
      assert s[i..i + |DevSuffix|][1] == s[i + 1];
    }
  }

  /** A link never points at a `-dev` version: the development suffix is set
      in exactly the case where `latest` replaces the version. */
  lemma {:induction false} DocVersionNeverDev(st: VersionState)
    requires WellFormed(st)
    ensures DocVersion(st) == LatestDocs || DocVersion(st) == "weblate-" + BaseVersion
    ensures !Contains(DocVersion(st), DevSuffix)
  {
    var seg := DocVersion(st);
    NoDashD(seg);
  }

  /** For every outcome of the probe, a build whose version carries `-dev`
      links to the `latest` documentation. */
  lemma DevVersionLinksLatest(probe: GitProbe)
    requires Init(probe).Success?
    requires Init(probe).value.version == BaseVersion + DevSuffix
    ensures DocVersion(Init(probe).value) == LatestDocs
  {
    assert BaseVersion != BaseVersion + DevSuffix;
  }
}

=== FILE: wrappers.dfy ===
/** Failure-carrying datatypes shared by the model: an optional value and a
    value-or-error result standing for a Python exception. */
module Wrappers {

  datatype Option<+T> = None | Some(value: T)

  datatype Result<+R, +E> = Success(value: R) | Failure(error: E)
}
